=== FILE: README.md ===
# openstoxlify session core, modelled in Dafny

This project models the core of openstoxlify, a Python library for scripting a
trading-strategy run: fetch OHLCV quotes for one symbol and period, record
chart series and trade signals, then authenticate with a broker-like provider
and dispatch at most one order.

The model has six modules, one per file:

- `Wrappers` (`wrappers.dfy`): `Option` and `Result`.
- `Models` (`models.dfy`): the plain records the core uses: `Quote`, `FloatSeries`,
  `ActionSeries`, `PlotData`, `RangeInterval`, `MarketData`. Also the closed
  enumerations `Period`, `PlotType`, `ActionType` and `DataSource` (`Provider` in `fetch.py`), and the
  `Error` type for every exception the core raises or lets through. A value
  that is not a member of a closed enumeration is represented by
  `PeriodArg.NotAPeriod` or `PlotTypeArg.NotAPlotType`, so the error paths for
  such values are modelled. `NotAPeriod` stands for a hashable value that is
  not a member.
- `Common` (`common.dfy`): the period resolver `find_range_interval` and `color_palette`.
- `Fetch` (`fetch.dfy`): the legacy fetch adapter. It covers `PERIOD_MAPPING`,
  the period check, the request, the conversion of the response into quotes,
  and the update of the process-wide `MARKET_DATA`. The transport is an
  abstract function from the request to a response or a failure text. The
  global is passed in and handed back as a value.
- `QuoteSort` (`quote_sort.dfy`): the stable sort by timestamp that
  `execute()` applies to the quotes (Python's `list.sort` is stable).
- `Context` (`context.dfy`): the session object. It has the quote cache keyed
  by symbol alone, the plot aggregator, the append-only signal log, and the
  authenticate/execute state machine. Each operation is a pure function that
  returns a `Step`, which holds three things:
  - the next session;
  - the method's return value, or the exception it raises;
  - the provider calls it made, in order.

  The provider is a record of three functions. Each returns a value or the
  text of the exception it raised. `Valid` is the session invariant:
  - only the session's symbol is cached;
  - labels are unique within each plot bucket;
  - no HOLD signal carries an amount.

  Every operation preserves `Valid`.

Timestamps are integers: UTC instants in whole microseconds since the epoch,
the resolution of a Python `datetime`. Prices, plot values and amounts are
reals.

## Behaviour worth knowing

- A failed `authecticate` sets the authenticated flag to false, even after an
  earlier success (`openstoxlify/context.py:61-62`). `Context.Authenticate`
  does the same, so authentication is not a terminal state.
- `quotes()` does not wrap a provider exception. The exception propagates
  unchanged (`ProviderRaised`), and nothing is cached
  (`openstoxlify/context.py:28-29`).
- `find_range_interval` reports an unknown period with a plain `Exception`
  whose message names the period (`InvalidPeriodMapping`,
  `openstoxlify/utils/common.py:16-18`).

## Model

| member | source | states |
|---|---|---|
| Common.RangeTableTotal | openstoxlify/utils/common.py:6-14 | every one of the seven periods has an entry in the resolver's table |
| Common.FindRangeInterval | openstoxlify/utils/common.py:5-20 | succeeds exactly for members of the closed Period enumeration; a hashable value that is not a member fails with an error carrying that value; a success has non-empty components |
| Common.ResolveTable | openstoxlify/utils/common.py:6-14 | each period resolves to its positional pair, e.g. DAILY to ("1d","1y") and MONTHLY to ("1mo","max") |
| Common.ResolveInjective | openstoxlify/utils/common.py:7-13 | distinct periods have distinct first components |
| Common.IntradayRangeIsOneWeek | openstoxlify/utils/common.py:7-13 | the second component is "1wk" if and only if the period is one of the four intraday periods |
| Common.ColorPalette | openstoxlify/utils/common.py:23-35 | exactly ten colours, each '#' plus six lower-case hex digits, pairwise distinct |
| Fetch.PeriodMappingTotal | openstoxlify/fetch.py:12-20 | every period is a key of PERIOD_MAPPING |
| Fetch.PeriodMappingAgreesWithResolver | openstoxlify/fetch.py:12-20 | for every period, PERIOD_MAPPING's interval and range equal the resolver's first and second components |
| Fetch.DivTowardZero | openstoxlify/fetch.py:55 | the quotient rounds toward zero: for a non-negative dividend it is the largest multiple not above it, for a negative one the smallest not below it |
| Fetch.WireInstantOrder | openstoxlify/fetch.py:55 | for well-formed wire timestamps, converting to a datetime keeps their order, and two map to the same timestamp exactly when they share the seconds and the whole microseconds |
| Fetch.ConvertQuotes | openstoxlify/fetch.py:52-67 | one quote per response quote, same length and order; each takes the wire timestamp truncated to whole microseconds and copies High/Low/Open/Close/Volume field by field |
| Fetch.Fetch | openstoxlify/fetch.py:23-74 | a hashable period outside PERIOD_MAPPING fails with ValueError, sends nothing and leaves the global unchanged; otherwise exactly one request (ticker, mapped range and interval, indicator "quote", source) is sent; a transport failure gives one wrapping RuntimeError and leaves the global unchanged; a success overwrites ticker, period, provider and quotes and returns the new global |
| Fetch.FetchValidatesLikeResolver | openstoxlify/fetch.py:30-33 | fetch rejects a period exactly when the period resolver does |
| Fetch.FetchEach | openstoxlify/fetch.py:8-10 | after a run of fetches, MARKET_DATA is either the value it started from or the result of one of those fetches |
| Fetch.NoSuccessKeepsGlobal | openstoxlify/fetch.py:28-74 | a run of fetches none of which succeeds leaves MARKET_DATA as it was |
| Fetch.LastSuccessDecides | openstoxlify/fetch.py:28-74 | after a run, MARKET_DATA is the result of the last fetch that succeeded, whatever failed after it |
| Fetch.FailedFetchesKeepInitial | openstoxlify/fetch.py:8-10 | when every fetch fails, MARKET_DATA keeps its initial value: empty ticker, DAILY, YFinance, no quotes |
| Fetch.LastSuccessfulFetchWins | openstoxlify/fetch.py:28-74 | when the last fetch of a run succeeds, MARKET_DATA is that fetch's result, whatever came before |
| QuoteSort.MaxTimestamp | openstoxlify/context.py:69 | the latest timestamp of a non-empty quote list: one quote carries it and none is later |
| QuoteSort.InsertByTime | openstoxlify/context.py:68 | inserting adds exactly the inserted quote to the multiset and keeps a sorted list sorted |
| QuoteSort.SortByTime | openstoxlify/context.py:68 | the result is sorted ascending by timestamp and is a permutation of the input |
| QuoteSort.InsertAtTime | openstoxlify/context.py:68 | an inserted quote lands after every quote with the same timestamp |
| QuoteSort.SortStable | openstoxlify/context.py:68 | the sort is stable: for every timestamp, the quotes carrying it keep their relative order |
| QuoteSort.SortSortedIsIdentity | openstoxlify/context.py:68 | sorting an already sorted list returns it unchanged |
| QuoteSort.SortedLastIsLatest | openstoxlify/context.py:68-69 | the last quote of a sorted permutation carries the latest timestamp of the original list |
| Context.New | openstoxlify/context.py:10-21 | a new session has the given provider, symbol and period, an empty quote cache, no plots, no signals, an empty token, is unauthenticated, and satisfies the session invariant |
| Context.Quotes | openstoxlify/context.py:23-30 | a cached symbol is answered from the cache with no provider call; otherwise exactly one provider call with the session's symbol and period, whose list is cached under the symbol; a provider failure propagates and caches nothing; no other cache entry or field changes |
| Context.NewQuotesAsksProvider | openstoxlify/context.py:10-30 | the first quotes() of a fresh session makes exactly one provider call, with the symbol and period given at construction, and returns the provider's list or fails when the provider does |
| Context.QuotesCachedBySymbolOnly | openstoxlify/context.py:23-30 | after a successful quotes() call, every later call returns the same list with no provider call. The cache key is the symbol alone, so a session given a different period still gets the cached list. In the code `_period` is fixed at construction and quotes() takes no arguments, so a different period arises only in the model |
| Context.FindLabel | openstoxlify/context.py:42-43 | finds the first series with the given label, or reports that none has it |
| Context.AddPoint | openstoxlify/context.py:42-49 | an existing label's first series gains the point at the end and keeps its label and original screen index, and every other series is unchanged; a new label gets one new series holding just the point, with the given screen index, appended at the end |
| Context.RecordedKeepsLabelsUnique | openstoxlify/context.py:38-49 | recording into a bucket with unique labels keeps the labels unique, and the label is then present exactly once |
| Context.Plot | openstoxlify/context.py:32-49 | screen_index defaults to 0; a plot type that is not a PlotType member fails before any mutation; otherwise the point is recorded in that type's bucket (created empty if absent), other buckets are unchanged, and no provider call is made |
| Context.PlotDefaultScreenIsZero | openstoxlify/context.py:32-49 | a plot() call without screen_index that records a new label appends a series on screen 0 |
| Context.PlotTwiceExtendsOneSeries | openstoxlify/context.py:38-49 | two records for the same new (type, label) give one series with both points in order, under the first call's screen index |
| Context.Normalize | openstoxlify/context.py:52 | the stored amount is 0 for HOLD and the caller's amount otherwise; timestamp and action are kept |
| Context.Signal | openstoxlify/context.py:51-54 | the log grows by exactly one normalised record at the end, earlier records and all other fields are untouched |
| Context.Authenticate | openstoxlify/context.py:56-62 | one provider call with the token; authenticated iff the provider succeeds; the token is stored on success and kept on failure; nothing is raised and nothing else changes |
| Context.FailedAuthenticateMakesExecuteNoop | openstoxlify/context.py:56-66 | after a failed authentication the session is unauthenticated and execute() changes nothing and calls nothing |
| Context.LastSignalAt | openstoxlify/context.py:70-72 | finds the last recorded signal with the given timestamp, or reports that none has it |
| Context.SignalIndex | openstoxlify/context.py:70 | every logged timestamp is a key, and each key maps to a logged signal carrying that timestamp |
| Context.SignalIndexIsLastWrite | openstoxlify/context.py:70-72 | the dictionary built from the log in log order holds, for each timestamp, exactly the last recorded signal with it |
| Context.SortQuotes | openstoxlify/context.py:68 | the cached list for the symbol becomes sorted by timestamp, a stable permutation of itself; nothing else changes |
| Context.Execute | openstoxlify/context.py:64-80 | unauthenticated: no change and no call. Authenticated: the quotes are sorted; an empty list fails on the [-1] lookup before any dispatch; at most one provider call, made exactly when the last signal at the latest timestamp exists and is not HOLD, with (symbol, that signal, its amount); the provider's failure propagates |
| Context.SortQuotesIdempotent | openstoxlify/context.py:68 | sorting the cached quotes twice is sorting them once |
| Context.SortQuotesKeepsDueSignal | openstoxlify/context.py:68-72 | sorting changes neither the emptiness of the quote list nor the signal due at the latest timestamp |
| Context.SortedQuotesEndAtLatest | openstoxlify/context.py:68-69 | after sorting, the last cached quote carries the latest timestamp of the unsorted list |
| Context.DueSignalIsIndexed | openstoxlify/context.py:68-72 | the dictionary lookup at the last sorted quote's timestamp finds exactly the last signal recorded at the latest timestamp |
| Context.Dispatch | openstoxlify/context.py:80 | exactly one provider call with (symbol, signal, its amount); the provider's failure propagates unchanged |
| Context.ExecuteIsRepeatable | openstoxlify/context.py:64-80 | a second execute() leaves the session as the first left it and re-evaluates the same latest-timestamp signal |
| Context.LastWriteWinsAtLatest | openstoxlify/context.py:51-80 | with LONG then SHORT recorded at the latest timestamp, whatever their amounts, execute() after a successful authentication dispatches exactly one order, the SHORT one with its own amount |
| Context.QuotesPreservesValid | openstoxlify/context.py:23-30 | quotes() preserves the session invariant |
| Context.PlotPreservesValid | openstoxlify/context.py:32-49 | plot() preserves the session invariant (labels unique per bucket) |
| Context.SignalPreservesValid | openstoxlify/context.py:51-54 | signal() preserves the session invariant (no HOLD carries an amount) |
| Context.AuthenticatePreservesValid | openstoxlify/context.py:56-62 | authecticate() preserves the session invariant |
| Context.ExecutePreservesValid | openstoxlify/context.py:64-80 | execute() preserves the session invariant |

## Left out

- Rendering (`openstoxlify/draw.py`): matplotlib drawing, pure UI.
- JSON export (`openstoxlify/output.py`): it reads the globals `PLOT_DATA` and `STRATEGY_DATA`. The modules that define them are not part of this model.
- The example scripts under `examples/`: floating-point indicator math with top-level side effects.
- The gRPC plumbing in `fetch` (channel, stub, request object). The whole exchange is one abstract `Transport` function.
- Concrete providers and the `models` package: they are not part of this model. The records are restated as plain datatypes, and `RangeInterval`'s fields are named by position.
- The read accessors `plots()`, `signals()`, `symbol()`, `period()` and `provider()`: they return fields, and here they are the fields of the `Context` record.
- Aliasing: `signal` mutates the caller's record, and `_quotes` is the same list object as the cache entry. Both are modelled with value semantics: one cached sequence is replaced by its sorted version.
- Exception message texts: the period list in fetch's ValueError, and the "request failed: " prefix. Only the kind of error and its payload are modelled.
- Fetch.ConvertQuotes: the UTC tag put on each timestamp is not a separate field; every timestamp in the model is a UTC instant. The timestamp is the wire instant truncated to whole microseconds, as `ToDatetime` produces it. Two cases are not modelled. The first is a wire instant outside the years a `datetime` can hold, where the conversion raises. The second is a malformed wire timestamp whose nanos lie outside [0, 10^9). Depending on the protobuf runtime's version, `ToDatetime` either raises ValueError for it or computes a value as `WireInstant` does. The model always computes the value.
- Context.ExecuteIsRepeatable: the second call gives the same outcome only because the provider is a fixed function of its arguments. A real broker may answer a repeated order differently.
- Common.FindRangeInterval: an unhashable argument, such as a list, makes `dictionary.get(period)` raise TypeError (`openstoxlify/utils/common.py:16`) instead of the modelled error naming the period. The model covers hashable arguments only.
- Fetch.Fetch: an unhashable period makes `period not in PERIOD_MAPPING` raise TypeError (`openstoxlify/fetch.py:30`) instead of ValueError. The model covers hashable arguments only.
- Fetch.Fetch: with a protobuf runtime that validates timestamps, a response quote whose nanos lie outside [0, 10^9) makes the conversion loop raise ValueError (`openstoxlify/fetch.py:54-67`). The loop is outside the `try`, so the error is not wrapped, and MARKET_DATA keeps its old value. The model reports success for such a response and overwrites the global.
- Fetch.Fetch: `fetch` returns the global `MARKET_DATA` object itself. A later successful fetch therefore also changes a result the caller still holds. Here each result is a separate value.
- Context.Plot: the check `plot_type not in PlotType` depends on the Python version. Python 3.10 and 3.11 raise TypeError for a value that is not an Enum member. A member of another Enum makes `in` return False, and line 36 raises the modelled ValueError. From 3.12, a raw value equal to a member's value passes the check and then fails with AttributeError on `plot_type.value` (`openstoxlify/context.py:38`). The model only says that a non-member fails before any mutation (`InvalidPlotType`).
- Plot bucket keys: the code keys `_plots` by the string `plot_type.value`, and the dict remembers the order in which plot types first appeared (`openstoxlify/context.py:38-40`). The model keys buckets by `PlotType` in an unordered map. The value strings and the insertion order matter only to the readers of `plots()`.
- Floating point: prices, values and amounts are reals, and timestamps are integers.

=== FILE: common.dfy ===
/** The period resolver and the chart colour palette (`utils/common.py`). */
module Common {
  import opened Wrappers
  import opened Models

  /** The resolver's table: each period to its positional (interval, range) pair. */
  const RangeTable: map<Period, RangeInterval> := map[
    Minutely   := RangeInterval("1m", "1wk"),
    Quintly    := RangeInterval("5m", "1wk"),
    HalfHourly := RangeInterval("30m", "1wk"),
    Hourly     := RangeInterval("60m", "1wk"),
    Daily      := RangeInterval("1d", "1y"),
    Weekly     := RangeInterval("1wk", "10y"),
    Monthly    := RangeInterval("1mo", "max")
  ]

  /** Every member of the enumeration has an entry: the table is total. */
  lemma RangeTableTotal(p: Period)
    ensures p in RangeTable
  {
    match p
    case Minutely =>
    case Quintly =>
    case HalfHourly =>
    case Hourly =>
    case Daily =>
    case Weekly =>
    case Monthly =>
  }

  /**
   * Looks `period` up in the table; a value the table does not hold raises an
   * exception that carries the value. Total over the closed enumeration.
   */
  function FindRangeInterval(period: PeriodArg): (r: Result<RangeInterval, Error>)
    ensures r.Success? <==> period.PeriodMember?
    ensures r.Failure? ==> r.error == InvalidPeriodMapping(period)
    ensures r.Success? ==> r.value.first != "" && r.value.second != ""
  {
    match period
    case PeriodMember(p) =>
      RangeTableTotal(p);
      if p in RangeTable then Success(RangeTable[p]) else Failure(InvalidPeriodMapping(period))
    case NotAPeriod(_) =>
      Failure(InvalidPeriodMapping(period))
  }

  /** The resolved pair of a member of the enumeration. */
  function Resolve(p: Period): RangeInterval {
    FindRangeInterval(PeriodMember(p)).value
  }

  /** The seven entries of the table, one per period. */
  lemma ResolveTable()
    ensures Resolve(Minutely) == RangeInterval("1m", "1wk")
    ensures Resolve(Quintly) == RangeInterval("5m", "1wk")
    ensures Resolve(HalfHourly) == RangeInterval("30m", "1wk")
    ensures Resolve(Hourly) == RangeInterval("60m", "1wk")
    ensures Resolve(Daily) == RangeInterval("1d", "1y")
    ensures Resolve(Weekly) == RangeInterval("1wk", "10y")
    ensures Resolve(Monthly) == RangeInterval("1mo", "max")
  {
  }

  /** Distinct periods resolve to distinct first components: the table is injective. */
  lemma ResolveInjective(p: Period, q: Period)
    ensures Resolve(p).first == Resolve(q).first ==> p == q
  {
    ResolveTable();
  }

  /** The second component is "1wk" exactly for the four intraday periods. */
  lemma IntradayRangeIsOneWeek(p: Period)
    ensures Resolve(p).second == "1wk" <==> p.IsIntraday()
  {
    ResolveTable();
  }

  /** A colour written as '#' followed by six lower-case hexadecimal digits. */
  predicate IsHexColour(c: string) {
    |c| == 7 && c[0] == '#' && forall k :: 1 <= k < 7 ==> c[k] in "0123456789abcdef"
  }

  /** The fixed ten-colour palette series are drawn with, in order. */
  function ColorPalette(): (r: seq<string>)
    ensures |r| == 10
    ensures forall i :: 0 <= i < |r| ==> IsHexColour(r[i])
    ensures forall i, j :: 0 <= i < j < |r| ==> r[i] != r[j]
  {
    [ "#1f77b4", "#ff7f0e", "#2ca02c", "#d62728", "#9467bd",
      "#8c564b", "#e377c2", "#7f7f7f", "#bcbd22", "#17becf" ]
  }
}

=== FILE: context.dfy ===
/**
 * The session object of a strategy run (`context.py`): a quote cache keyed by
 * symbol, a plot aggregator bucketed by plot type and label, an append-only
 * signal log, and the authenticate/execute state machine that dispatches at
 * most one order. Every operation is a pure transition that returns the next
 * session, what the Python method returns or raises, and the provider calls
 * it made, in order.
 */
module Context {
  import opened Wrappers
  import opened Models
  import opened QuoteSort

  /**
   * The provider capability. Each operation returns its value, or the text of
   * the exception it raised.
   */
  datatype Provider = Provider(
    quotes: (string, Period) -> Result<seq<Quote>, string>,
    authenticate: string -> Result<(), string>,
    execute: (string, ActionSeries, real) -> Result<(), string>)

  /** One call made to the provider. */
  datatype Call =
    | QuotesCall(symbol: string, period: Period)
    | AuthenticateCall(token: string)
    | ExecuteCall(symbol: string, signal: ActionSeries, amount: real)

  /**
   * The session state. The Python object's `_quotes` is not a field: it is
   * either the empty list (nothing fetched yet) or the very list cached under
   * the session's symbol, so it is derived by `WorkingQuotes`.
   */
  datatype Context = Context(
    provider: Provider,
    symbol: string,
    period: Period,
    quotesMapped: map<string, seq<Quote>>,
    plots: map<PlotType, seq<PlotData>>,
    signals: seq<ActionSeries>,
    token: string,
    authenticated: bool)

  /** A transition: the next session, the method's return value or exception, and the provider calls made. */
  datatype Step<T> = Step(ctx: Context, result: Result<T, Error>, calls: seq<Call>)

  /** The quote list `execute` sorts and reads. */
  function WorkingQuotes(c: Context): seq<Quote> {
    if c.symbol in c.quotesMapped then c.quotesMapped[c.symbol] else []
  }

  /** The series of one plot type, or none yet. */
  function Bucket(c: Context, t: PlotType): seq<PlotData> {
    if t in c.plots then c.plots[t] else []
  }

  /** No two series of a bucket share a label. */
  predicate UniqueLabels(bucket: seq<PlotData>) {
    forall i, j :: 0 <= i < j < |bucket| ==> bucket[i].name != bucket[j].name
  }

  /** A recorded HOLD never carries an amount. */
  predicate HoldsAreZero(signals: seq<ActionSeries>) {
    forall i :: 0 <= i < |signals| ==> signals[i].action == Hold ==> signals[i].amount == 0.0
  }

  /**
   * The session invariant: only the session's own symbol is ever cached,
   * labels are unique within each plot bucket, and no HOLD carries an amount.
   */
  predicate Valid(c: Context) {
    && c.quotesMapped.Keys <= {c.symbol}
    && (forall t :: t in c.plots ==> UniqueLabels(c.plots[t]))
    && HoldsAreZero(c.signals)
  }

  /** `Context(provider, symbol, period)`: nothing cached, plotted or signalled, not authenticated. */
  function New(provider: Provider, symbol: string, period: Period): (c: Context)
    ensures Valid(c)
    ensures c.provider == provider && c.symbol == symbol && c.period == period
    ensures WorkingQuotes(c) == [] && c.signals == [] && !c.authenticated
    ensures forall t :: Bucket(c, t) == []
    ensures c.quotesMapped == map[] && c.plots == map[] && c.token == ""
  {
    Context(provider, symbol, period, map[], map[], [], "", false)
  }

  // ---------------------------------------------------------------- quotes

  /**
   * `quotes()`: the list cached under the symbol if there is one, without
   * calling the provider; otherwise one provider call with the session's
   * symbol and period, whose list is cached under the symbol alone. A provider
   * exception propagates and caches nothing.
   */
  function Quotes(c: Context): (r: Step<seq<Quote>>)
    ensures r.calls == [] <==> c.symbol in c.quotesMapped
    ensures r.calls != [] ==> r.calls == [QuotesCall(c.symbol, c.period)]
    ensures c.symbol in c.quotesMapped ==> r == Step(c, Success(c.quotesMapped[c.symbol]), [])
    ensures r.result.Failure? ==>
              && r.ctx == c
              && c.provider.quotes(c.symbol, c.period).Failure?
              && r.result.error == ProviderRaised(c.provider.quotes(c.symbol, c.period).error)
    ensures r.result.Success? ==>
              && c.symbol in r.ctx.quotesMapped
              && r.ctx.quotesMapped[c.symbol] == r.result.value
              && WorkingQuotes(r.ctx) == r.result.value
              && (r.calls != [] ==> c.provider.quotes(c.symbol, c.period) == Success(r.result.value))
    ensures r.ctx == c.(quotesMapped := r.ctx.quotesMapped)
    ensures r.ctx.quotesMapped.Keys <= c.quotesMapped.Keys + {c.symbol}
    ensures forall k :: k in c.quotesMapped ==> k in r.ctx.quotesMapped
    ensures forall k :: k in c.quotesMapped && k != c.symbol ==> r.ctx.quotesMapped[k] == c.quotesMapped[k]
  {
    if c.symbol in c.quotesMapped then
      Step(c, Success(c.quotesMapped[c.symbol]), [])
    else
      var call := QuotesCall(c.symbol, c.period);
      match c.provider.quotes(c.symbol, c.period)
      case Failure(e) => Step(c, Failure(ProviderRaised(e)), [call])
      case Success(qs) => Step(c.(quotesMapped := c.quotesMapped[c.symbol := qs]), Success(qs), [call])
  }

  /**
   * Once a `quotes()` call has succeeded, every later call returns the same
   * list without a provider call, whatever period the session carries: the
   * cache key is the symbol alone.
   */
  lemma QuotesCachedBySymbolOnly(c: Context, p: Period)
    ensures var first := Quotes(c);
            first.result.Success? ==>
              && Quotes(first.ctx) == Step(first.ctx, first.result, [])
              && Quotes(first.ctx.(period := p)).result == first.result
              && Quotes(first.ctx.(period := p)).calls == []
  {
  }

  /**
   * The first `quotes()` of a fresh session always asks the provider, once,
   * with the symbol and period given at construction, and returns what the
   * provider returned.
   */
  lemma NewQuotesAsksProvider(provider: Provider, symbol: string, period: Period)
    ensures var first := Quotes(New(provider, symbol, period));
            && first.calls == [QuotesCall(symbol, period)]
            && (first.result.Success? <==> provider.quotes(symbol, period).Success?)
            && (first.result.Success? ==> first.result.value == provider.quotes(symbol, period).value)
  {
  }

  // ---------------------------------------------------------------- plot

  /** The position of the first series labelled `name`, if any. */
  function FindLabel(bucket: seq<PlotData>, name: string): (r: Option<nat>)
    ensures r.None? <==> forall j :: 0 <= j < |bucket| ==> bucket[j].name != name
    ensures r.Some? ==>
              && r.value < |bucket|
              && bucket[r.value].name == name
              && forall j :: 0 <= j < r.value ==> bucket[j].name != name
  {
    if |bucket| == 0 then None
    else if bucket[0].name == name then Some(0)
    else match FindLabel(bucket[1..], name)
      case None => None
      case Some(i) => Some(i + 1)
  }

  /**
   * `after` is `before` with `point` recorded under `name`: the first series
   * so labelled gains `point` at the end of its data and keeps its label and
   * screen index while every other series stays as it was; with no such
   * series, one new series holding just `point` is appended at the end.
   */
  predicate Recorded(before: seq<PlotData>, after: seq<PlotData>, name: string, point: FloatSeries, screenIndex: int) {
    match FindLabel(before, name)
    case Some(i) =>
      && |after| == |before|
      && after[i] == PlotData(name, before[i].data + [point], before[i].screenIndex)
      && forall j :: 0 <= j < |before| && j != i ==> after[j] == before[j]
    case None =>
      after == before + [PlotData(name, [point], screenIndex)]
  }

  /** The scan over one bucket in `plot`. */
  function AddPoint(bucket: seq<PlotData>, name: string, point: FloatSeries, screenIndex: int): (r: seq<PlotData>)
    ensures Recorded(bucket, r, name, point, screenIndex)
  {
    if |bucket| == 0 then
      [PlotData(name, [point], screenIndex)]
    else if bucket[0].name == name then
      [bucket[0].(data := bucket[0].data + [point])] + bucket[1..]
    else
      var rest := AddPoint(bucket[1..], name, point, screenIndex);
      assert forall j :: 1 <= j < |bucket| ==> bucket[1..][j - 1] == bucket[j];
      [bucket[0]] + rest
  }

  /** Recording into a bucket with unique labels keeps them unique, and the label is then present exactly once. */
  lemma RecordedKeepsLabelsUnique(before: seq<PlotData>, after: seq<PlotData>, name: string, point: FloatSeries, screenIndex: int)
    requires UniqueLabels(before)
    requires Recorded(before, after, name, point, screenIndex)
    ensures UniqueLabels(after)
    ensures FindLabel(after, name).Some?
    ensures forall i, j :: 0 <= i < |after| && 0 <= j < |after| && after[i].name == name && after[j].name == name ==> i == j
  {
    match FindLabel(before, name)
    case Some(k) =>
      assert after[k].name == name;
    case None =>
      assert after[|before|].name == name;
  }

  /**
   * `plot(label, plot_type, data, screen_index=0)`: a plot type outside the
   * enumeration raises before anything changes; otherwise the point is
   * recorded in that type's bucket (created empty first if absent) and no
   * other bucket changes.
   */
  function Plot(c: Context, name: string, plotType: PlotTypeArg, point: FloatSeries, screenIndex: int := 0): (r: Step<()>)
    ensures r.calls == []
    ensures r.result.Failure? <==> plotType.NotAPlotType?
    ensures r.result.Failure? ==> r.ctx == c && r.result.error == InvalidPlotType(plotType)
    ensures r.ctx == c.(plots := r.ctx.plots)
    ensures r.result.Success? ==>
              && r.ctx.plots.Keys == c.plots.Keys + {plotType.plotType}
              && Recorded(Bucket(c, plotType.plotType), r.ctx.plots[plotType.plotType], name, point, screenIndex)
              && forall t :: t in c.plots && t != plotType.plotType ==> r.ctx.plots[t] == c.plots[t]
  {
    match plotType
    case NotAPlotType(_) =>
      Step(c, Failure(InvalidPlotType(plotType)), [])
    case PlotTypeMember(t) =>
      var bucket := Bucket(c, t);
      Step(c.(plots := c.plots[t := AddPoint(bucket, name, point, screenIndex)]), Success(()), [])
  }

  /**
   * A call that leaves out `screen_index` and records a new label creates a
   * series on screen 0.
   */
  lemma PlotDefaultScreenIsZero(c: Context, name: string, t: PlotType, point: FloatSeries)
    requires FindLabel(Bucket(c, t), name).None?
    ensures Plot(c, name, PlotTypeMember(t), point).ctx.plots[t] == Bucket(c, t) + [PlotData(name, [point], 0)]
  {
  }

  /**
   * Two records of the same (type, label) into a session that has no such
   * series yet leave one series holding both points in order, under the
   * screen index of the first record.
   */
  lemma PlotTwiceExtendsOneSeries(c: Context, name: string, t: PlotType, p1: FloatSeries, p2: FloatSeries, s1: int, s2: int)
    requires FindLabel(Bucket(c, t), name).None?
    ensures var c1 := Plot(c, name, PlotTypeMember(t), p1, s1).ctx;
            var c2 := Plot(c1, name, PlotTypeMember(t), p2, s2).ctx;
            && |Bucket(c2, t)| == |Bucket(c, t)| + 1
            && Bucket(c2, t)[|Bucket(c, t)|] == PlotData(name, [p1, p2], s1)
            && Bucket(c2, t)[..|Bucket(c, t)|] == Bucket(c, t)
  {
    var b := Bucket(c, t);
    var c1 := Plot(c, name, PlotTypeMember(t), p1, s1).ctx;
    var b1 := Bucket(c1, t);
    assert b1 == b + [PlotData(name, [p1], s1)];
    assert b1[|b|].name == name;
    var k := FindLabel(b1, name).value;
    assert k == |b|;
  }

  // ---------------------------------------------------------------- signal

  /** The record `signal` stores: a HOLD's amount is forced to zero. */
  function Normalize(data: ActionSeries): (r: ActionSeries)
    ensures r.timestamp == data.timestamp && r.action == data.action
    ensures r.action == Hold ==> r.amount == 0.0
    ensures r.action != Hold ==> r.amount == data.amount
  {
    if data.action == Hold then data.(amount := 0.0) else data
  }

  /** `signal(data)`: appends the normalised record at the end of the log; nothing else changes. */
  function Signal(c: Context, data: ActionSeries): (r: Step<()>)
    ensures r.result.Success? && r.calls == []
    ensures r.ctx == c.(signals := r.ctx.signals)
    ensures |r.ctx.signals| == |c.signals| + 1
    ensures r.ctx.signals[..|c.signals|] == c.signals
    ensures r.ctx.signals[|c.signals|] == Normalize(data)
  {
    Step(c.(signals := c.signals + [Normalize(data)]), Success(()), [])
  }

  // ---------------------------------------------------------------- authenticate

  /**
   * `authecticate(token)`: one provider call. On success the token is stored
   * and the session is authenticated; on failure the flag is cleared, even if
   * it was set before, and the stored token is kept. Nothing is raised.
   */
  function Authenticate(c: Context, token: string): (r: Step<()>)
    ensures r.result.Success?
    ensures r.calls == [AuthenticateCall(token)]
    ensures r.ctx.authenticated <==> c.provider.authenticate(token).Success?
    ensures r.ctx.token == (if r.ctx.authenticated then token else c.token)
    ensures r.ctx == c.(token := r.ctx.token, authenticated := r.ctx.authenticated)
  {
    match c.provider.authenticate(token)
    case Success(_) => Step(c.(token := token, authenticated := true), Success(()), [AuthenticateCall(token)])
    case Failure(_) => Step(c.(authenticated := false), Success(()), [AuthenticateCall(token)])
  }

  // ---------------------------------------------------------------- execute

  /** The position `i` holds the last record of the log stamped `t`. */
  predicate IsLastAt(signals: seq<ActionSeries>, i: int, t: Timestamp) {
    && 0 <= i < |signals|
    && signals[i].timestamp == t
    && forall j :: i < j < |signals| ==> signals[j].timestamp != t
  }

  /** The last record of the log stamped `t`, found by scanning back from the end. */
  function LastSignalAt(signals: seq<ActionSeries>, t: Timestamp): (r: Option<ActionSeries>)
    ensures r.None? <==> forall i :: 0 <= i < |signals| ==> signals[i].timestamp != t
    ensures r.Some? ==> exists i :: IsLastAt(signals, i, t) && signals[i] == r.value
  {
    if |signals| == 0 then None
    else if signals[|signals| - 1].timestamp == t then
      assert IsLastAt(signals, |signals| - 1, t);
      Some(signals[|signals| - 1])
    else
      var r := LastSignalAt(signals[..|signals| - 1], t);
      assert forall i :: 0 <= i < |signals| - 1 ==> signals[..|signals| - 1][i] == signals[i];
      if r.Some? then
        var i :| IsLastAt(signals[..|signals| - 1], i, t) && signals[..|signals| - 1][i] == r.value;
        assert IsLastAt(signals, i, t);
        r
      else r
  }

  /** The dictionary `{s.timestamp: s for s in signals}`, built in log order. */
  function SignalIndex(signals: seq<ActionSeries>): (r: map<Timestamp, ActionSeries>)
    ensures forall i :: 0 <= i < |signals| ==> signals[i].timestamp in r
    ensures forall t :: t in r ==> r[t] in signals && r[t].timestamp == t
    decreases |signals|
  {
    if |signals| == 0 then map[]
    else SignalIndex(signals[..|signals| - 1])[signals[|signals| - 1].timestamp := signals[|signals| - 1]]
  }

  /** Building the dictionary in log order makes the last record per timestamp win. */
  lemma {:induction false} SignalIndexIsLastWrite(signals: seq<ActionSeries>, t: Timestamp)
    ensures t in SignalIndex(signals) <==> LastSignalAt(signals, t).Some?
    ensures t in SignalIndex(signals) ==> SignalIndex(signals)[t] == LastSignalAt(signals, t).value
    decreases |signals|
  {
    if |signals| > 0 && signals[|signals| - 1].timestamp != t {
      SignalIndexIsLastWrite(signals[..|signals| - 1], t);
    }
  }

  /** The signal `execute` considers: the last one recorded for the latest quote's timestamp. */
  function DueSignal(c: Context): Option<ActionSeries> {
    if |WorkingQuotes(c)| == 0 then None
    else LastSignalAt(c.signals, MaxTimestamp(WorkingQuotes(c)))
  }

  /** Whether `execute` dispatches an order. */
  predicate Dispatches(c: Context) {
    c.authenticated && DueSignal(c).Some? && DueSignal(c).value.action != Hold
  }

  /**
   * The in-place sort of `execute()`. The list it sorts is the one cached
   * under the symbol, so the cache entry is replaced by its sorted version;
   * with nothing cached the list is empty and stays so.
   */
  function SortQuotes(c: Context): (r: Context)
    ensures r == c.(quotesMapped := r.quotesMapped)
    ensures r.quotesMapped.Keys == c.quotesMapped.Keys
    ensures forall k :: k in c.quotesMapped && k != c.symbol ==> r.quotesMapped[k] == c.quotesMapped[k]
    ensures |WorkingQuotes(r)| == |WorkingQuotes(c)|
    ensures SortedByTime(WorkingQuotes(r))
    ensures multiset(WorkingQuotes(r)) == multiset(WorkingQuotes(c))
    ensures forall t :: AtTime(WorkingQuotes(r), t) == AtTime(WorkingQuotes(c), t)
  {
    var sorted := SortByTime(WorkingQuotes(c));
    assert forall t :: AtTime(sorted, t) == AtTime(WorkingQuotes(c), t) by {
      forall t ensures AtTime(sorted, t) == AtTime(WorkingQuotes(c), t) {
        SortStable(WorkingQuotes(c), t);
      }
    }
    if c.symbol in c.quotesMapped then c.(quotesMapped := c.quotesMapped[c.symbol := sorted]) else c
  }

  /** After sorting, the last cached quote carries the latest timestamp. */
  lemma SortedQuotesEndAtLatest(c: Context)
    ensures |WorkingQuotes(SortQuotes(c))| == |WorkingQuotes(c)|
    ensures WorkingQuotes(c) != [] ==>
              var sorted := WorkingQuotes(SortQuotes(c));
              sorted[|sorted| - 1].timestamp == MaxTimestamp(WorkingQuotes(c))
  {
    var sorted := WorkingQuotes(SortQuotes(c));
    assert |multiset(sorted)| == |multiset(WorkingQuotes(c))|;
    if WorkingQuotes(c) != [] {
      SortedLastIsLatest(sorted, WorkingQuotes(c));
    }
  }

  /**
   * The dictionary lookup of `execute()` at the last sorted quote's timestamp
   * finds exactly the due signal.
   */
  lemma DueSignalIsIndexed(c: Context)
    ensures |WorkingQuotes(SortQuotes(c))| == |WorkingQuotes(c)|
    ensures WorkingQuotes(c) != [] ==>
              var sorted := WorkingQuotes(SortQuotes(c));
              var latest := sorted[|sorted| - 1].timestamp;
              && (latest in SignalIndex(c.signals) <==> DueSignal(c).Some?)
              && (latest in SignalIndex(c.signals) ==> SignalIndex(c.signals)[latest] == DueSignal(c).value)
  {
    SortedQuotesEndAtLatest(c);
    if WorkingQuotes(c) != [] {
      var m := MaxTimestamp(WorkingQuotes(c));
      assert DueSignal(c) == LastSignalAt(c.signals, m);
      SignalIndexIsLastWrite(c.signals, m);
    }
  }

  /** The order call at the end of `execute()`; the provider's exception propagates. */
  function Dispatch(c: Context, signal: ActionSeries): (r: Step<()>)
    ensures r.ctx == c
    ensures r.calls == [ExecuteCall(c.symbol, signal, signal.amount)]
    ensures r.result.Success? <==> c.provider.execute(c.symbol, signal, signal.amount).Success?
    ensures r.result.Failure? ==> r.result.error == ProviderRaised(c.provider.execute(c.symbol, signal, signal.amount).error)
  {
    var call := ExecuteCall(c.symbol, signal, signal.amount);
    match c.provider.execute(c.symbol, signal, signal.amount)
    case Success(_) => Step(c, Success(()), [call])
    case Failure(e) => Step(c, Failure(ProviderRaised(e)), [call])
  }

  /**
   * `execute()`: a no-op unless authenticated. Otherwise the cached quotes
   * are sorted by timestamp (and stay sorted), an empty list fails on the
   * latest-quote lookup, and the provider is called exactly once with the
   * due signal when that exists and is not HOLD. A provider exception
   * propagates; the sort is not undone.
   */
  function Execute(c: Context): (r: Step<()>)
    ensures !c.authenticated ==> r == Step(c, Success(()), [])
    ensures c.authenticated ==> r.ctx == SortQuotes(c)
    ensures c.authenticated && WorkingQuotes(c) == [] ==> r.result == Failure(IndexOutOfRange)
    ensures |r.calls| <= 1
    ensures r.calls != [] <==> Dispatches(c)
    ensures Dispatches(c) ==>
              var s := DueSignal(c).value;
              && r.calls == [ExecuteCall(c.symbol, s, s.amount)]
              && (r.result.Success? <==> c.provider.execute(c.symbol, s, s.amount).Success?)
              && (r.result.Failure? ==> r.result.error == ProviderRaised(c.provider.execute(c.symbol, s, s.amount).error))
    ensures c.authenticated && WorkingQuotes(c) != [] && !Dispatches(c) ==> r.result == Success(())
  {
    if !c.authenticated then
      Step(c, Success(()), [])
    else
      var c' := SortQuotes(c);
      var sorted := WorkingQuotes(c');
      if |sorted| == 0 then
        Step(c', Failure(IndexOutOfRange), [])
      else
        var latest := sorted[|sorted| - 1].timestamp;
        var hashmap := SignalIndex(c.signals);
        DueSignalIsIndexed(c);
        if latest !in hashmap then
          Step(c', Success(()), [])
        else
          var signal := hashmap[latest];
          if signal.action == Hold then
            Step(c', Success(()), [])
          else
            Dispatch(c', signal)
  }

  // ---------------------------------------------------------------- properties

  lemma QuotesPreservesValid(c: Context)
    requires Valid(c)
    ensures Valid(Quotes(c).ctx)
  {
  }

  lemma PlotPreservesValid(c: Context, name: string, plotType: PlotTypeArg, point: FloatSeries, screenIndex: int)
    requires Valid(c)
    ensures Valid(Plot(c, name, plotType, point, screenIndex).ctx)
  {
    if plotType.PlotTypeMember? {
      var t := plotType.plotType;
      RecordedKeepsLabelsUnique(Bucket(c, t), Plot(c, name, plotType, point, screenIndex).ctx.plots[t], name, point, screenIndex);
    }
  }

  lemma SignalPreservesValid(c: Context, data: ActionSeries)
    requires Valid(c)
    ensures Valid(Signal(c, data).ctx)
  {
    var after := Signal(c, data).ctx.signals;
    forall i | 0 <= i < |after| && after[i].action == Hold
      ensures after[i].amount == 0.0
    {
      if i < |c.signals| {
        assert after[i] == after[..|c.signals|][i];
      }
    }
  }

  lemma AuthenticatePreservesValid(c: Context, token: string)
    requires Valid(c)
    ensures Valid(Authenticate(c, token).ctx)
  {
  }

  lemma ExecutePreservesValid(c: Context)
    requires Valid(c)
    ensures Valid(Execute(c).ctx)
  {
  }

  /** A failed authentication leaves the session unauthenticated, so a following `execute()` does nothing. */
  lemma FailedAuthenticateMakesExecuteNoop(c: Context, token: string)
    requires c.provider.authenticate(token).Failure?
    ensures var a := Authenticate(c, token).ctx;
            !a.authenticated && Execute(a) == Step(a, Success(()), [])
  {
  }

  /** Sorting the cached quotes a second time changes nothing. */
  lemma SortQuotesIdempotent(c: Context)
    ensures SortQuotes(SortQuotes(c)) == SortQuotes(c)
  {
    SortSortedIsIdentity(WorkingQuotes(SortQuotes(c)));
  }

  /** Sorting keeps the due signal, and an empty quote list stays empty. */
  lemma SortQuotesKeepsDueSignal(c: Context)
    ensures (WorkingQuotes(SortQuotes(c)) == []) <==> (WorkingQuotes(c) == [])
    ensures DueSignal(SortQuotes(c)) == DueSignal(c)
  {
    var quotes := WorkingQuotes(c);
    var sorted := WorkingQuotes(SortQuotes(c));
    if |quotes| > 0 {
      SortedLastIsLatest(sorted, quotes);
      SortedLastIsLatest(sorted, sorted);
    }
  }

  /**
   * Calling `execute()` again changes nothing further and re-evaluates the
   * same due signal: the second call makes the same provider call, if any,
   * with the same outcome.
   */
  lemma ExecuteIsRepeatable(c: Context)
    ensures Execute(Execute(c).ctx) == Execute(c)
  {
    if c.authenticated {
      SortQuotesIdempotent(c);
      SortQuotesKeepsDueSignal(c);
      var r1 := Execute(c);
      var r2 := Execute(r1.ctx);
      assert r2.ctx == r1.ctx;
      assert r2.calls == r1.calls;
      assert r2.result == r1.result;
    }
  }

  /**
   * Two signals at the latest quote's timestamp, LONG then SHORT: after a
   * successful authentication `execute()` dispatches exactly one order, the
   * SHORT one with its own amount.
   */
  lemma LastWriteWinsAtLatest(c: Context, token: string, long: ActionSeries, short: ActionSeries, a: real, b: real)
    requires WorkingQuotes(c) != []
    requires c.provider.authenticate(token).Success?
    requires long == ActionSeries(MaxTimestamp(WorkingQuotes(c)), Long, a)
    requires short == ActionSeries(MaxTimestamp(WorkingQuotes(c)), Short, b)
    ensures var s := Signal(Signal(c, long).ctx, short).ctx;
            Execute(Authenticate(s, token).ctx).calls == [ExecuteCall(c.symbol, short, b)]
  {
    var s := Signal(Signal(c, long).ctx, short).ctx;
    var a := Authenticate(s, token).ctx;
    assert a.signals[|a.signals| - 1] == short;
    assert IsLastAt(a.signals, |a.signals| - 1, short.timestamp);
    assert WorkingQuotes(a) == WorkingQuotes(c);
    assert DueSignal(a) == Some(short);
  }
}

=== FILE: fetch.dfy ===
/**
 * The legacy fetch adapter (`fetch.py`): validates the period against its own
 * table, sends one market-data request through an abstract transport, converts
 * the response into quotes and publishes them in the process-wide
 * `MARKET_DATA` record. The global is passed in and returned as a value.
 */
module Fetch {
  import opened Wrappers
  import opened Models
  import Common

  /** One entry of PERIOD_MAPPING. */
  datatype IntervalRange = IntervalRange(interval: string, range: string)

  const PeriodMapping: map<Period, IntervalRange> := map[
    Minutely   := IntervalRange("1m", "1wk"),
    Quintly    := IntervalRange("5m", "1wk"),
    HalfHourly := IntervalRange("30m", "1wk"),
    Hourly     := IntervalRange("60m", "1wk"),
    Daily      := IntervalRange("1d", "1y"),
    Weekly     := IntervalRange("1wk", "10y"),
    Monthly    := IntervalRange("1mo", "max")
  ]

  /** The value MARKET_DATA holds before any fetch. */
  const InitialMarketData: MarketData := MarketData("", Daily, YFinance, [])

  /** The price part of one quote in the service's response. */
  datatype Price = Price(high: real, low: real, open: real, close: real, volume: real)

  /**
   * One quote of the service's response. The wire timestamp is a
   * protobuf Timestamp: whole seconds since the epoch plus nanoseconds.
   */
  datatype ProductQuote = ProductQuote(seconds: int, nanos: int, price: Price)

  /** Integer division rounding toward zero, as the protobuf runtime rounds. */
  function DivTowardZero(a: int, b: int): (q: int)
    requires b > 0
    ensures a >= 0 ==> q * b <= a < q * b + b
    ensures a < 0 ==> q * b - b < a <= q * b
  {
    if a >= 0 then a / b else -((-a) / b)
  }

  /**
   * `Timestamp.ToDatetime()`: the wire instant as a Python `datetime`, which
   * holds whole microseconds only; the nanoseconds below a microsecond are
   * dropped, rounding toward zero.
   */
  function WireInstant(seconds: int, nanos: int): Timestamp {
    seconds * 1_000_000 + DivTowardZero(nanos, 1000)
  }

  /**
   * For well-formed wire timestamps (nanos in [0, 10^9)), the conversion keeps
   * the order of instants, and two instants map to the same timestamp exactly
   * when they agree on the seconds and on the whole microseconds.
   */
  lemma {:induction false} WireInstantOrder(s1: int, n1: int, s2: int, n2: int)
    requires 0 <= n1 < 1_000_000_000 && 0 <= n2 < 1_000_000_000
    ensures (s1 < s2 || (s1 == s2 && n1 <= n2)) ==> WireInstant(s1, n1) <= WireInstant(s2, n2)
    ensures WireInstant(s1, n1) == WireInstant(s2, n2) <==> s1 == s2 && n1 / 1000 == n2 / 1000
  {
    var m1, m2 := n1 / 1000, n2 / 1000;
    assert 0 <= m1 < 1_000_000 && 0 <= m2 < 1_000_000;
    assert WireInstant(s1, n1) == s1 * 1_000_000 + m1;
    assert WireInstant(s2, n2) == s2 * 1_000_000 + m2;
    if s1 < s2 {
      assert s1 * 1_000_000 + 1_000_000 <= s2 * 1_000_000;
    } else if s2 < s1 {
      assert s2 * 1_000_000 + 1_000_000 <= s1 * 1_000_000;
    }
  }

  /** The GetProductInfo request the adapter builds. */
  datatype Request = Request(ticker: string, range: string, interval: string, indicator: string, source: DataSource)

  /**
   * The channel, stub and call together: the response's quotes, or the text of
   * whatever exception any of them raised.
   */
  type Transport = Request -> Result<seq<ProductQuote>, string>

  /** What a fetch leaves behind: the global, the result, and the requests sent. */
  datatype FetchOutcome = FetchOutcome(global: MarketData, result: Result<MarketData, Error>, sent: seq<Request>)

  /** Every member of the enumeration is a key of PERIOD_MAPPING. */
  lemma PeriodMappingTotal(p: Period)
    ensures p in PeriodMapping
  {
    match p
    case Minutely =>
    case Quintly =>
    case HalfHourly =>
    case Hourly =>
    case Daily =>
    case Weekly =>
    case Monthly =>
  }

  /** PERIOD_MAPPING and the period resolver agree, position by position, on every period. */
  lemma PeriodMappingAgreesWithResolver(p: Period)
    ensures p in PeriodMapping
    ensures PeriodMapping[p].interval == Common.Resolve(p).first
    ensures PeriodMapping[p].range == Common.Resolve(p).second
  {
    PeriodMappingTotal(p);
    Common.ResolveTable();
  }

  /** The quote built from one response quote, field by field. */
  predicate Converted(q: Quote, pq: ProductQuote) {
    && q.timestamp == WireInstant(pq.seconds, pq.nanos)
    && q.high == pq.price.high
    && q.low == pq.price.low
    && q.open == pq.price.open
    && q.close == pq.price.close
    && q.volume == pq.price.volume
  }

  /** The conversion loop: one quote per response quote, appended in response order. */
  function ConvertQuotes(response: seq<ProductQuote>): (quotes: seq<Quote>)
    ensures |quotes| == |response|
    ensures forall i :: 0 <= i < |response| ==> Converted(quotes[i], response[i])
  {
    if |response| == 0 then []
    else
      var pq := response[|response| - 1];
      var p := pq.price;
      ConvertQuotes(response[..|response| - 1])
        + [Quote(WireInstant(pq.seconds, pq.nanos), p.high, p.low, p.open, p.close, p.volume)]
  }

  /**
   * fetch(ticker, provider, period) against the current global: a period
   * outside PERIOD_MAPPING raises before any request; a transport failure
   * raises one wrapping error and leaves the global as it was; otherwise the
   * global is overwritten and returned.
   */
  function Fetch(global: MarketData, ticker: string, provider: DataSource, period: PeriodArg, send: Transport)
    : (r: FetchOutcome)
    ensures !(period.PeriodMember? && period.period in PeriodMapping) ==>
              r == FetchOutcome(global, Failure(InvalidPeriod(period)), [])
    ensures r.result.Failure? ==> r.global == global
    ensures r.result.Success? ==> r.result.value == r.global
    ensures r.result.Success? ==>
              && r.global.ticker == ticker
              && r.global.period == period.period
              && r.global.provider == provider
    ensures period.PeriodMember? && period.period in PeriodMapping ==>
              && |r.sent| == 1
              && r.sent[0].ticker == ticker
              && r.sent[0].interval == PeriodMapping[period.period].interval
              && r.sent[0].range == PeriodMapping[period.period].range
              && r.sent[0].indicator == "quote"
              && r.sent[0].source == provider
              && (r.result.Failure? <==> send(r.sent[0]).Failure?)
              && (r.result.Failure? ==> r.result.error == RequestFailed(send(r.sent[0]).error))
              && (r.result.Success? ==>
                    && |r.global.quotes| == |send(r.sent[0]).value|
                    && forall i :: 0 <= i < |r.global.quotes| ==>
                         Converted(r.global.quotes[i], send(r.sent[0]).value[i]))
  {
    if !(period.PeriodMember? && period.period in PeriodMapping) then
      FetchOutcome(global, Failure(InvalidPeriod(period)), [])
    else
      var entry := PeriodMapping[period.period];
      var req := Request(ticker, entry.range, entry.interval, "quote", provider);
      match send(req)
      case Failure(cause) =>
        FetchOutcome(global, Failure(RequestFailed(cause)), [req])
      case Success(response) =>
        var updated := MarketData(ticker, period.period, provider, ConvertQuotes(response));
        FetchOutcome(updated, Success(updated), [req])
  }

  /** Fetch rejects a period exactly when the period resolver does. */
  lemma FetchValidatesLikeResolver(global: MarketData, ticker: string, provider: DataSource, period: PeriodArg, send: Transport)
    ensures Fetch(global, ticker, provider, period, send).result == Failure(InvalidPeriod(period))
            <==> Common.FindRangeInterval(period).Failure?
  {
    if period.PeriodMember? {
      PeriodMappingTotal(period.period);
    }
  }

  /** The arguments of one `fetch()` call in a script. */
  datatype FetchArgs = FetchArgs(ticker: string, provider: DataSource, period: PeriodArg)

  /** Whether fetching with these arguments succeeds; the answer does not depend on the global. */
  predicate Succeeds(global: MarketData, a: FetchArgs, send: Transport) {
    Fetch(global, a.ticker, a.provider, a.period, send).result.Success?
  }

  /**
   * MARKET_DATA after a script's fetches run one after another, each failure
   * caught by the script: every fetch starts from the global the previous
   * one left. The final global is the starting one or a fetch's own result.
   */
  function FetchEach(global: MarketData, calls: seq<FetchArgs>, send: Transport): (r: MarketData)
    ensures r == global || exists i :: 0 <= i < |calls| && Fetch(global, calls[i].ticker, calls[i].provider, calls[i].period, send).result == Success(r)
    decreases |calls|
  {
    if |calls| == 0 then global
    else
      var prev := FetchEach(global, calls[..|calls| - 1], send);
      var last := calls[|calls| - 1];
      var o := Fetch(prev, last.ticker, last.provider, last.period, send);
      assert o.result.Success? ==> o.result == Fetch(global, last.ticker, last.provider, last.period, send).result;
      assert o.global != global && o.result.Failure? ==>
               exists i :: 0 <= i < |calls| - 1 && Fetch(global, calls[i].ticker, calls[i].provider, calls[i].period, send).result == Success(o.global) by {
        if o.global != global && o.result.Failure? {
          var j :| 0 <= j < |calls[..|calls| - 1]| && Fetch(global, calls[..|calls| - 1][j].ticker, calls[..|calls| - 1][j].provider, calls[..|calls| - 1][j].period, send).result == Success(prev);
          assert calls[..|calls| - 1][j] == calls[j];
        }
      }
      o.global
  }

  /** A run in which no fetch succeeds leaves the global as it was. */
  lemma {:induction false} NoSuccessKeepsGlobal(global: MarketData, calls: seq<FetchArgs>, send: Transport)
    requires forall i :: 0 <= i < |calls| ==> !Succeeds(global, calls[i], send)
    ensures FetchEach(global, calls, send) == global
    decreases |calls|
  {
    if |calls| > 0 {
      var init := calls[..|calls| - 1];
      var last := calls[|calls| - 1];
      assert forall i :: 0 <= i < |init| ==> init[i] == calls[i];
      NoSuccessKeepsGlobal(global, init, send);
      assert !Succeeds(global, last, send);
    }
  }

  /**
   * When the fetch at position `i` succeeds and every later one fails, the
   * global after the run is that fetch's result.
   */
  lemma {:induction false} LastSuccessDecides(global: MarketData, calls: seq<FetchArgs>, i: nat, send: Transport)
    requires i < |calls| && Succeeds(global, calls[i], send)
    requires forall j :: i < j < |calls| ==> !Succeeds(global, calls[j], send)
    ensures FetchEach(global, calls, send) == Fetch(global, calls[i].ticker, calls[i].provider, calls[i].period, send).result.value
    decreases |calls|
  {
    var init := calls[..|calls| - 1];
    var last := calls[|calls| - 1];
    var prev := FetchEach(global, init, send);
    assert Fetch(prev, last.ticker, last.provider, last.period, send).result == Fetch(global, last.ticker, last.provider, last.period, send).result;
    if i < |calls| - 1 {
      assert forall j :: 0 <= j < |init| ==> init[j] == calls[j];
      LastSuccessDecides(global, init, i, send);
      assert !Succeeds(global, last, send);
    }
  }

  /** A script whose fetches all fail still sees the initial MARKET_DATA. */
  lemma FailedFetchesKeepInitial(calls: seq<FetchArgs>, send: Transport)
    requires forall i :: 0 <= i < |calls| ==> Fetch(InitialMarketData, calls[i].ticker, calls[i].provider, calls[i].period, send).result.Failure?
    ensures FetchEach(InitialMarketData, calls, send) == InitialMarketData
  {
    NoSuccessKeepsGlobal(InitialMarketData, calls, send);
  }

  /** The last fetch of a script, when it succeeds, alone decides MARKET_DATA. */
  lemma LastSuccessfulFetchWins(global: MarketData, calls: seq<FetchArgs>, last: FetchArgs, send: Transport)
    requires Fetch(global, last.ticker, last.provider, last.period, send).result.Success?
    ensures FetchEach(global, calls + [last], send) == Fetch(global, last.ticker, last.provider, last.period, send).result.value
  {
    assert (calls + [last])[|calls|] == last;
    LastSuccessDecides(global, calls + [last], |calls|, send);
  }
}

=== FILE: models.dfy ===
/**
 * The plain records and enumerations the session and the fetch adapter work
 * on. The package that declares them in the repository (`models`) is not part
 * of this model, so they are stated here as the core uses them: timestamps
 * are integers (instants in UTC), prices, values and amounts are reals.
 */
module Models {

  /**
   * An instant in UTC, in whole microseconds since the Unix epoch: the
   * resolution of a Python `datetime`. Only equality and order of timestamps
   * matter to the core.
   */
  type Timestamp = int

  /** The closed sampling-period enumeration. */
  datatype Period = Minutely | Quintly | HalfHourly | Hourly | Daily | Weekly | Monthly
  {
    /** The four periods shorter than a day. */
    predicate IsIntraday() {
      this in {Minutely, Quintly, HalfHourly, Hourly}
    }
  }

  /**
   * Whatever a caller passes where a Period is expected: a member, or another
   * hashable value (the table lookups raise on unhashable ones, which are not
   * modelled).
   */
  datatype PeriodArg = PeriodMember(period: Period) | NotAPeriod(repr: string)

  /** The closed plot-type enumeration. */
  datatype PlotType = Line | Area | Histogram

  /** Whatever a caller passes where a PlotType is expected. */
  datatype PlotTypeArg = PlotTypeMember(plotType: PlotType) | NotAPlotType(repr: string)

  datatype ActionType = Long | Short | Hold

  /** The market-data source named in a fetch request (`Provider` in `fetch.py`). */
  datatype DataSource = YFinance | Binance

  /** One OHLCV observation. */
  datatype Quote = Quote(timestamp: Timestamp, high: real, low: real, open: real, close: real, volume: real)

  /** One point of a plotted series. */
  datatype FloatSeries = FloatSeries(timestamp: Timestamp, value: real)

  /** One trade intent recorded by a strategy. */
  datatype ActionSeries = ActionSeries(timestamp: Timestamp, action: ActionType, amount: real)

  /** A series of points, labelled `name` (`label` is a Dafny keyword), drawn on the panel `screenIndex`. */
  datatype PlotData = PlotData(name: string, data: seq<FloatSeries>, screenIndex: int)

  /**
   * The pair the period resolver returns, in positional order. Its declaring
   * module is not part of this model, so the fields are named by position;
   * the fetch adapter reads the first as the interval and the second as the range.
   */
  datatype RangeInterval = RangeInterval(first: string, second: string)

  /** The result of a fetch: what was asked for and the quotes received. */
  datatype MarketData = MarketData(ticker: string, period: Period, provider: DataSource, quotes: seq<Quote>)

  /** Every exception the core raises or lets through. */
  datatype Error =
    | InvalidPeriodMapping(period: PeriodArg)   // find_range_interval: period missing from its table
    | InvalidPeriod(period: PeriodArg)          // fetch: ValueError, period missing from PERIOD_MAPPING
    | RequestFailed(cause: string)              // fetch: RuntimeError wrapping the transport's exception
    | InvalidPlotType(plotType: PlotTypeArg)    // Context.plot: ValueError
    | ProviderRaised(cause: string)             // an exception of the provider, propagated unchanged
    | IndexOutOfRange                           // Context.execute: `[-1]` on an empty quote list
}

=== FILE: quote_sort.dfy ===
/**
 * The ordering `Context.execute` imposes on the cached quotes: Python's
 * `list.sort(key=timestamp)`, which is stable. Modelled as an insertion sort
 * that places each quote after every earlier one with a timestamp not above it.
 */
module QuoteSort {
  import opened Models

  predicate SortedByTime(qs: seq<Quote>) {
    forall i, j :: 0 <= i < j < |qs| ==> qs[i].timestamp <= qs[j].timestamp
  }

  /** The quotes of `qs` stamped `t`, in their order in `qs`. */
  function AtTime(qs: seq<Quote>, t: Timestamp): seq<Quote> {
    if |qs| == 0 then []
    else AtTime(qs[..|qs| - 1], t) + (if qs[|qs| - 1].timestamp == t then [qs[|qs| - 1]] else [])
  }

  /** The latest timestamp among non-empty `qs`, found without sorting. */
  function MaxTimestamp(qs: seq<Quote>): (t: Timestamp)
    requires |qs| > 0
    ensures forall i :: 0 <= i < |qs| ==> qs[i].timestamp <= t
    ensures exists i :: 0 <= i < |qs| && qs[i].timestamp == t
  {
    if |qs| == 1 then qs[0].timestamp
    else
      var m := MaxTimestamp(qs[..|qs| - 1]);
      var last := qs[|qs| - 1].timestamp;
      assert forall i :: 0 <= i < |qs| - 1 ==> qs[..|qs| - 1][i] == qs[i];
      if m < last then last else m
  }

  /** Appending a quote no earlier than the last of a sorted sequence keeps it sorted. */
  lemma AppendKeepsSorted(s: seq<Quote>, q: Quote)
    ensures SortedByTime(s) && (|s| > 0 ==> s[|s| - 1].timestamp <= q.timestamp) ==> SortedByTime(s + [q])
  {
    if SortedByTime(s) && (|s| > 0 ==> s[|s| - 1].timestamp <= q.timestamp) {
      var r := s + [q];
      forall i, j | 0 <= i < j < |r|
        ensures r[i].timestamp <= r[j].timestamp
      {
        if j == |s| && i < |s| - 1 {
          assert s[i].timestamp <= s[|s| - 1].timestamp;
        }
      }
    }
  }

  /** Dropping the last quote of a sorted sequence keeps it sorted. */
  lemma PrefixKeepsSorted(s: seq<Quote>)
    requires |s| > 0
    ensures SortedByTime(s) ==> SortedByTime(s[..|s| - 1])
  {
    if SortedByTime(s) {
      var init := s[..|s| - 1];
      forall i, j | 0 <= i < j < |init|
        ensures init[i].timestamp <= init[j].timestamp
      {
        assert init[i] == s[i] && init[j] == s[j];
      }
    }
  }

  /**
   * Inserts `q` after the last quote of `sorted` whose timestamp is not above
   * its own, scanning back from the end; a sorted input stays sorted.
   */
  function InsertByTime(sorted: seq<Quote>, q: Quote): (r: seq<Quote>)
    ensures |r| == |sorted| + 1
    ensures SortedByTime(sorted) ==> SortedByTime(r)
    ensures multiset(r) == multiset(sorted) + multiset{q}
    ensures r[|r| - 1] == q || (|sorted| > 0 && r[|r| - 1] == sorted[|sorted| - 1])
  {
    if |sorted| == 0 || sorted[|sorted| - 1].timestamp <= q.timestamp then
      AppendKeepsSorted(sorted, q);
      sorted + [q]
    else
      var init := sorted[..|sorted| - 1];
      var last := sorted[|sorted| - 1];
      assert sorted == init + [last];
      PrefixKeepsSorted(sorted);
      var front := InsertByTime(init, q);
      AppendKeepsSorted(front, last);
      front + [last]
  }

  /** The stable sort: sorts the prefix, then inserts the last quote. */
  function SortByTime(qs: seq<Quote>): (r: seq<Quote>)
    ensures |r| == |qs|
    ensures SortedByTime(r)
    ensures multiset(r) == multiset(qs)
  {
    if |qs| == 0 then []
    else
      assert qs == qs[..|qs| - 1] + [qs[|qs| - 1]];
      InsertByTime(SortByTime(qs[..|qs| - 1]), qs[|qs| - 1])
  }

  /** The quotes among `[q]` stamped `t`. */
  function Mark(q: Quote, t: Timestamp): seq<Quote> {
    if q.timestamp == t then [q] else []
  }

  /** Filtering by timestamp distributes over appending one quote. */
  lemma AtTimeAppend(s: seq<Quote>, x: Quote, t: Timestamp)
    ensures AtTime(s + [x], t) == AtTime(s, t) + Mark(x, t)
  {
    assert (s + [x])[..|s|] == s;
  }

  /** Inserting `q` puts it after every quote that shares its timestamp. */
  lemma {:induction false} InsertAtTime(sorted: seq<Quote>, q: Quote, t: Timestamp)
    ensures AtTime(InsertByTime(sorted, q), t) == AtTime(sorted, t) + Mark(q, t)
    decreases |sorted|
  {
    if |sorted| == 0 || sorted[|sorted| - 1].timestamp <= q.timestamp {
      assert InsertByTime(sorted, q) == sorted + [q];
      AtTimeAppend(sorted, q, t);
    } else {
      var init := sorted[..|sorted| - 1];
      var last := sorted[|sorted| - 1];
      var front := InsertByTime(init, q);
      assert InsertByTime(sorted, q) == front + [last];
      assert sorted == init + [last];
      InsertAtTime(init, q, t);
      AtTimeAppend(front, last, t);
      AtTimeAppend(init, last, t);
      // q is strictly earlier than last, so at most one of them is stamped t
      assert Mark(q, t) == [] || Mark(last, t) == [];
    }
  }

  /** The sort is stable: quotes sharing a timestamp keep their relative order. */
  lemma {:induction false} SortStable(qs: seq<Quote>, t: Timestamp)
    ensures AtTime(SortByTime(qs), t) == AtTime(qs, t)
    decreases |qs|
  {
    if |qs| > 0 {
      var init := qs[..|qs| - 1];
      SortStable(init, t);
      InsertAtTime(SortByTime(init), qs[|qs| - 1], t);
    }
  }

  /** Inserting the last quote of a sorted sequence into the rest puts it back at the end. */
  lemma InsertAfterLast(qs: seq<Quote>)
    requires SortedByTime(qs)
    requires |qs| > 0
    ensures SortedByTime(qs[..|qs| - 1])
    ensures InsertByTime(qs[..|qs| - 1], qs[|qs| - 1]) == qs
  {
    var init := qs[..|qs| - 1];
    PrefixKeepsSorted(qs);
    if |qs| > 1 {
      assert init[|init| - 1] == qs[|qs| - 2];
      assert qs[|qs| - 2].timestamp <= qs[|qs| - 1].timestamp;
    }
    assert qs == init + [qs[|qs| - 1]];
  }

  /** Sorting an already sorted sequence changes nothing, so sorting twice is sorting once. */
  lemma {:induction false} SortSortedIsIdentity(qs: seq<Quote>)
    requires SortedByTime(qs)
    ensures SortByTime(qs) == qs
    decreases |qs|
  {
    if |qs| > 0 {
      var init := qs[..|qs| - 1];
      var last := qs[|qs| - 1];
      PrefixKeepsSorted(qs);
      SortSortedIsIdentity(init);
      InsertAfterLast(qs);
      assert qs == init + [last];
    }
  }

  /** The last quote of a sorted permutation of `qs` carries the latest timestamp of `qs`. */
  lemma SortedLastIsLatest(s: seq<Quote>, qs: seq<Quote>)
    requires SortedByTime(s)
    requires multiset(s) == multiset(qs)
    requires |qs| > 0
    ensures |s| == |qs|
    ensures s[|s| - 1].timestamp == MaxTimestamp(qs)
  {
    assert |s| == |multiset(s)| == |multiset(qs)| == |qs|;
    var m := MaxTimestamp(qs);
    var last := s[|s| - 1];
    assert last in multiset(qs);
    var i :| 0 <= i < |qs| && qs[i].timestamp == m;
    assert qs[i] in multiset(s);
    var j :| 0 <= j < |s| && s[j] == qs[i];
  }
}

=== FILE: wrappers.dfy ===
/** Failure-carrying wrappers shared by every module of the model. */
module Wrappers {

  /** A value that may be absent, as Python's `dict.get` returning `None`. */
  datatype Option<+T> = None | Some(value: T)

  /** The outcome of an operation that returns a value or raises. */
  datatype Result<+R, +E> = Success(value: R) | Failure(error: E)
}
